=== FILE: README.md ===
# SkillScope search pipeline in Dafny

SkillScope searches a video provider (YouTube) for a topic and shows only the
videos that look educational, ranked and annotated. This project models the
part of it that decides which video records survive, in which order, and how
they are split:

- the serverless handler `api/search.js`: request validation, the
  nine-keyword educational filter, record building, the sort by views and the
  cut at `max`, the AI-analysis fallback with its brace extraction, and the
  enrichment loop that overwrites summary and rating;
- the Express backend `backend/index.js`: the title/description keyword
  filter, the rating clamp and rounding, the fetcher's empty-id return, the
  default `max`, the sort by rating and the best-picks/results split;
- the client catalogue `data/dummyData.ts`: the eight built-in resources,
  `searchResources` with its empty-query guard and offline fallback filter,
  and `getResources`;
- the "Popular Resources" page `pages/Resources.tsx`: the "Top Rated" and
  "Learning" selections and the fallback to the catalogue.

Modules: `Wrappers` (Option, Result), `Seqs` (JavaScript `filter`, `map`,
`slice`, and the stable descending sort), `Text` (ASCII `toLowerCase`,
`includes`, first line), `Records` (the provider's video items, resources,
responses, the upstream request), then one module per source file:
`ApiSearch`, `Backend`, `DummyData`, `ResourcesPage`.

Modelling choices:

- Strings are `seq<char>` and only ASCII letters have a case mapping.
- Ratings are integers in tenths of a star (4.9 stars is `49`). A record of
  the serverless handler has no rating until enrichment; that is `None`.
- The provider's answers are given inputs: the ids of the search answer
  (`""` for an item without one) and the items of the details answer. Missing
  snippet fields are `""`: every read of these fields tests only whether it is
  truthy (`||`, `?.`), so `''` behaves exactly like a missing field.
- The completion service's reply for the record at position `i` is
  `replies(i)`, and `JSON.parse` is a parameter `parse` (`None` when it
  throws). The clock reading `now` is a parameter too.
- The backend's rating formula is kept only from the clamp on: the quantity
  `combinedScore * timeDecay * 2` is an arbitrary real `boost`, and
  `Math.round(y)` is `floor(y + 0.5)`.
- A JavaScript sort with comparator `(a, b) => key(b) - key(a)` is a stable
  insertion sort in descending key order (`Seqs.SortDesc`), characterized as
  the unique key-ordered arrangement that keeps the input order among equal
  keys.
- The `max` query parameter is an `Option<int>`: `None` when absent or empty.
  The serverless handler keeps an explicit `0` (`req.query.max || 20` sees the
  string `"0"`), while the backend's `Number(req.query.max) || 20` turns `0`
  into 20.

Behaviours of the code worth noting:

- The backend answers a search without any video id with a 500, because the
  fetcher returns `[]` and the handler's destructuring then leaves `vids`
  undefined. The serverless handler answers such a search with an empty list.
- A completion reply without a brace pair replaces the summary with the
  reply's own first 140 characters, not with the description. An error reply
  carries no message content, so it empties the summary.
- The backend never cuts its answer at `max`; `max` only sizes the upstream
  request.
- The two handlers use different keyword filters: the serverless handler
  searches the joined title and description for nine keywords, the backend
  searches the title for six and the description for four.

## Model

| member | source | states |
|---|---|---|
| Text.FirstLine | api/search.js:60 | `split('\n')[0]` is the longest prefix without a line break: a prefix of the input, free of '\n', and followed by '\n' whenever it stops early |
| ApiSearch.IsEducational | api/search.js:41-44 | a keyword in the lower-cased title alone, or in the lower-cased description alone, makes the video educational (see also ApiSearch.KeywordAcrossBoundary) |
| ApiSearch.KeywordAcrossBoundary | api/search.js:41-44 | because title and description are joined with a space, "how" + "to" is educational though neither part holds any of the nine keywords |
| ApiSearch.Summary | api/search.js:60 | the summary is a prefix of the description, has no line break, has at most 140 characters, and stops early only at a line break |
| ApiSearch.CandidatesComplete | api/search.js:47-64 | every educational video of the details answer contributes its record to the list that is sorted and cut |
| ApiSearch.CandidatesSound | api/search.js:47-64 | every record in that list was built from an educational video of the answer |
| ApiSearch.CandidatesShape | api/search.js:52-63 | every record before enrichment has a newline-free summary of at most 140 characters and no rating |
| ApiSearch.Ranked | api/search.js:64 | the ranked list is a prefix of the stable sort by views, is in non-increasing view order, holds min(max, n) records for a non-negative max (and drops the last -max records for a negative one), and holds only candidate records |
| ApiSearch.Analyze | api/search.js:68-99 | when the reply's brace span parses, the analysis is that parse whatever its rating; a rating other than 3 comes only from such a parse; without a key or on an unreachable service the summary is the description's first min(140, n) characters (see also ApiSearch.AnalyzeFallback, ApiSearch.AnalyzeReplyWithoutJson) |
| ApiSearch.ExtractJson | api/search.js:90-93 | a match exists exactly when a '{' precedes a '}', and it is the greedy span from the first '{' to the last '}' |
| ApiSearch.AnalyzeFallback | api/search.js:68-99 | without a key, on an unreachable service, or when the extracted span does not parse, the analysis is rating 3 and the description's first min(140, n) characters |
| ApiSearch.AnalyzeReplyWithoutJson | api/search.js:88-95 | a reply without a brace pair gives rating 3 and the reply's own first 140 characters, so an empty reply empties the summary |
| ApiSearch.Enrich | api/search.js:103-110 | enrichment keeps the number and order of records, changes no field but summary and rating, and leaves every record rated |
| ApiSearch.EnrichWithoutKey | api/search.js:103-110 | with no completion-service key (the fallback of line 69), every record keeps its summary of at most 140 characters and gets rating 3, nothing else changing |
| ApiSearch.EnrichBatch | api/search.js:103-109 | one batch analyses the records at positions i to i + 4 (fewer at the end) in place, leaving earlier analysed records and later untouched records as they were |
| ApiSearch.EnrichInBatches | api/search.js:102-110 | the loop over batches of five, overwriting records in place, computes exactly the record-by-record enrichment |
| ApiSearch.Plan | api/search.js:3-18 | an empty or missing `q` gives 400 whatever the key, the key is checked only after that (500), the default `max` is 20, an explicit `max` is kept, and the upstream request asks for min(2·max, 50) items |
| ApiSearch.Handle | api/search.js:1-117 | an empty or missing `q` gives 400 whatever the key; a missing provider key gives 500; otherwise the answer is 200 with a list of at most as many records as there are educational videos, empty when the search yields no id (see also the Handle* lemmas below) |
| ApiSearch.HandleNoIds | api/search.js:27-28 | a search answer without any video id gives 200 with an empty list |
| ApiSearch.HandleExplicitZeroMax | api/search.js:4 | an explicit `max=0` is kept, so with a query and a provider key the answer is an empty list whatever the provider returns |
| ApiSearch.HandleReturnsOnlyEducational | api/search.js:47-112 | every record of a successful answer is the record of an educational video up to its summary and rating, and for a non-negative `max` there are at most `max` of them |
| ApiSearch.HandleInViewOrder | api/search.js:64-110 | a successful answer is in non-increasing view order with or without the completion-service key, since enrichment never changes `views` |
| ApiSearch.HandleWithoutAiKey | api/search.js:64-112 | without the completion-service key the answer is the ranked list in view order with every rating set to 3 and nothing else changed |
| Records.UpstreamRequest | api/search.js:15 | the upstream search asks for min(2·max, 50) items: never more than 50, exactly 2·max up to max = 25 |
| Records.VideoIdsEmpty | api/search.js:27-28 | the joined id list is empty exactly when every search item lacks a video id |
| Backend.IsEducational | backend/index.js:72-75 | whatever the backend's split keyword test accepts, the serverless handler's test accepts too (see also Backend.DescriptionCourseOrGuideRejected, Backend.NoMatchAcrossBoundary) |
| Backend.DescriptionCourseOrGuideRejected | backend/index.js:75 | "course" or "guide" in the description alone does not make a video educational here, while the serverless handler accepts both |
| Backend.NoMatchAcrossBoundary | backend/index.js:72-75 | title "how" with description "to" is not educational here, since each part is searched on its own |
| Backend.Rating | backend/index.js:88 | for any abstract score the clamped and rounded rating is a whole number of tenths in [3, 5] stars |
| Backend.FinalClampIsNoOp | backend/index.js:97 | the later clamp into [0, 5] never changes the rating |
| Backend.RatingMonotone | backend/index.js:88 | a larger score never lowers the rating; a non-positive score gives 3 stars and a score of 2 or more gives 5 |
| Backend.Normalize | backend/index.js:64-105 | a video yields null exactly when it is not educational; otherwise its url is the watch prefix plus its id, its category is 'Learning', its summary is the description's first min(200, n) characters, its id, title and view count are the video's, and its rating is the clamped, rounded rating of the video's score, in [3, 5] stars |
| Backend.CollectNormalized | backend/index.js:113-117 | the `for...of` loop that pushes non-null records computes the records of the educational videos, in provider order |
| Backend.CollectedExactly | backend/index.js:114-117 | there is one record per educational video, every record comes from an educational video, and every educational video's record is present |
| Backend.Request | backend/index.js:110 | the effective `max` of line 110 (0 or missing becomes 20) feeds `Math.min(maxResults * 2, 50)` of line 34: the upstream request asks for min(2·max, 50) items, so at most 50, and 40 when `max` is missing or 0 |
| Backend.Handle | backend/index.js:107-125 | a missing `q` gives 400 whatever the key; a missing key gives 500; the answer is 200 exactly when the query is present, the key is set and the search yields an id, and a 200 answer carries best picks and results |
| Backend.HandleNoIds | backend/index.js:40-42 | a search without any video id makes the fetcher return `[]`; destructuring it leaves `vids` undefined, the `for...of` over it throws, and the answer is a 500 |
| Backend.HandleSplit | backend/index.js:118-121 | best picks followed by results is the stable sort of all educational records by rating, in non-increasing rating order, with nothing cut at `max`; at most three best picks, and results non-empty only with exactly three |
| Backend.HandleReturnsOnlyEducational | backend/index.js:114-117 | every best pick and every result is the record of an educational video of the details answer |
| Backend.MaxDoesNotTruncate | backend/index.js:110-121 | for the same provider answers, the response does not depend on `max` |
| Seqs.SortDescStable | backend/index.js:118 | for every key, the elements carrying it appear in the sorted output exactly as in the input |
| Seqs.SortDescSortedPermutation | api/search.js:64 | the sort yields non-increasing key order and a permutation of its input |
| Seqs.SortDescCharacterized | backend/index.js:118 | a list is the sort's output exactly when it is in non-increasing key order and keeps the input order among equal keys |
| DummyData.DummyIdsDistinct | data/dummyData.ts:14-111 | the catalogue has eight items with pairwise distinct ids |
| DummyData.DummyRatingsAndCategories | data/dummyData.ts:14-111 | every catalogue item is rated between 4.5 and 5 stars and none has the category 'Learning' |
| DummyData.FirstIds | data/dummyData.ts:14-62 | the first four catalogue items carry ids '1' to '4' |
| DummyData.GetResources | data/dummyData.ts:148-151 | `getResources` returns the catalogue unchanged: eight items, ids distinct, every rating between 4.5 and 5 stars |
| DummyData.SearchResources | data/dummyData.ts:122-142 | an empty query gives an empty list whatever the backend does; an `ok` answer's body is returned as is; otherwise the result is the offline fallback search, an order-preserving subsequence of the catalogue |
| DummyData.FallbackSearch | data/dummyData.ts:136-140 | the fallback keeps, in catalogue order, exactly the items whose lower-cased title or category contains the lower-cased query |
| DummyData.FallbackCaseInsensitive | data/dummyData.ts:136-139 | queries that differ only in ASCII letter case find the same items |
| ResourcesPage.TopRated | pages/Resources.tsx:70 | the "Top Rated" row is the first min(4, n) items of the order-preserving filter `rating >= 4.5`, each rated at least 4.5 |
| ResourcesPage.LearningResources | pages/Resources.tsx:95 | the "Learning" row is an order-preserving subsequence holding only items in category 'Learning', every such item, and one entry per such position of the input, so repeated items are kept as often as they occur |
| ResourcesPage.Load | pages/Resources.tsx:62-85 | an `ok` list answer is shown as loaded and anything else shows the catalogue; the "Top Rated" row is the first min(4, n) items of the loaded list rated 4.5 or more, and the "Learning" row is exactly its 'Learning' items in order (see also ResourcesPage.FallbackSelections, ResourcesPage.BackendAnswerFallsBack) |
| ResourcesPage.CatalogueSelections | pages/Resources.tsx:76-78 | on the catalogue the "Top Rated" row is its first four items and the "Learning" row is empty |
| ResourcesPage.FallbackSelections | pages/Resources.tsx:73-79 | a failed load shows the catalogue, the first four catalogue items as "Top Rated" and an empty "Learning" row |
| ResourcesPage.BackendAnswerFallsBack | pages/Resources.tsx:66-79 | the backend's best-picks object is not a list, so `filter` throws and the page shows the catalogue |
| ResourcesPage.ServerlessWithoutAiKey | pages/Resources.tsx:66-71 | fed by the serverless handler with the provider key set and without a completion-service key, the page shows at most 15 items, none in "Top Rated", all in "Learning" |

## Left out

- HTTP I/O: the calls to the provider and the completion service, Express routing and `listen`, and CORS. Provider answers are given inputs, and they are not tied to the request that would have produced them (`max` sizes that request only).
- Failed provider calls: the serverless handler's 502 answers for a non-success provider status are not modelled. In the backend, a failed search, details or channel-statistics call makes axios throw (backend/index.js:29-56), and the catch answers 500 (backend/index.js:123); Backend.Handle's "200 exactly when the query is present, the key is set and an id exists" assumes every provider call succeeds.
- Backend.Handle: states nothing about provider-call failures, for the reason above.
- String lengths: strings are taken to be ASCII, or at least free of characters outside the Basic Multilingual Plane, so that a Dafny `char` is one UTF-16 code unit and the lengths and positions of `slice(0, 140)` and `slice(0, 200)` agree with JavaScript's; a summary cut in the middle of a surrogate pair is not modelled.
- Malformed provider items: an item without `id` in the backend's search answer, or without `snippet` in its details answer, throws and gives a 500; items are assumed well formed.
- The backend's channel-statistics call: its result is never read by normalization.
- Floating point: `Math.pow`, `Math.log10`, the engagement and popularity formulas, `unifiedScore` and the `unifiedScore` field of backend records. Rounding error in `y * 10` is not modelled.
- `reviews: []` on serverless records: always empty in this pipeline.
- `JSON.parse` and the shape of what it returns: a parameter. A parsed object lacking `summary` or `rating` would leave those fields undefined.
- A non-numeric or fractional `max` (`NaN`, `2.5`): `max` is an integer.
- Unicode case mapping: only ASCII letters are lower-cased.
- `Promise.all` concurrency: the batches run one record after another, which gives the same result since each record only reads and writes itself.
- The 500-ms `sleep`, `console` logging, the request the catalogue search sends (`max=50`), `Date.now` and `new Date().toISOString()` (the clock is the parameter `now`).
- React rendering, including the `Math.round` star display and the pages' loading state; `pages/Results.tsx`, `api/health.js`, `api/resources/[id].js` and `tools/test_openrouter.js` are not part of this model.

=== FILE: api_search.dfy ===
/** The serverless search handler: validate the request, keep the educational
    videos of the provider's answer, rank them by views, cut the list at `max`,
    and overwrite each record's summary and rating with an AI analysis (or its
    deterministic fallback). */
module ApiSearch {
  import opened Wrappers
  import opened Seqs
  import opened Text
  import opened Records

  // ---------------------------------------------------------------------------
  // Educational keyword filter
  // ---------------------------------------------------------------------------

  const Keywords: seq<string> :=
    ["tutorial", "course", "learn", "lesson", "guide", "how to", "curriculum", "course outline", "beginner"]

  /** The title and description, joined by one space and lower-cased, contain a
      keyword; a keyword in the title alone, or in the description alone,
      suffices. */
  function IsEducational(title: string, desc: string): (b: bool)
    ensures ContainsAny(Lower(title), Keywords) ==> b
    ensures ContainsAny(Lower(desc), Keywords) ==> b
  {
    LowerAppend(title, " " + desc);
    LowerAppend(" ", desc);
    assert title + " " + desc == title + (" " + desc);
    ContainsAnyAppend(Lower(title), Lower(" ") + Lower(desc), Keywords);
    ContainsAnyAppend(Lower(" "), Lower(desc), Keywords);
    ContainsAny(Lower(title + " " + desc), Keywords)
  }

  predicate EducationalVideo(v: Video)
  {
    IsEducational(v.title, v.description)
  }

  /** Because of the joining space a keyword can straddle the two parts: neither
      "how" nor "to" holds a keyword, yet together they read "how to". */
  lemma KeywordAcrossBoundary()
    ensures IsEducational("how", "to")
    ensures !ContainsAny(Lower("how"), Keywords)
    ensures !ContainsAny(Lower("to"), Keywords)
  {
    LowerIsLower("how");
    LowerIsLower("to");
    LowerIsLower("how to");
    assert "how" + " " + "to" == "how to";
    assert OccursAt("how to", Keywords[5], 0);
    ContainsAnyNeedsRoom("how", Keywords);
    ContainsAnyNeedsRoom("to", Keywords);
  }

  // ---------------------------------------------------------------------------
  // Records and ranking
  // ---------------------------------------------------------------------------

  /** `description.split('\n')[0].slice(0, 140) || ''`. */
  function Summary(description: string): (r: string)
    ensures r <= description
    ensures '\n' !in r
    ensures |r| <= SummaryLength
    ensures |r| < SummaryLength && |r| < |description| ==> description[|r|] == '\n'
  {
    var line := FirstLine(description);
    SliceFromZero(line, SummaryLength);
    Slice(line, 0, SummaryLength)
  }

  /** The record built for an educational video; it has no rating yet. */
  function ToRecord(v: Video, now: string): Resource
  {
    Resource(v.id, v.title, YouTube, WatchUrl(v.id), None, v.viewCount,
             Learning, Thumbnail(v), Summary(v.description), CreatedAt(v, now))
  }

  /** `items.map(v => isEducational(...) ? record : null).filter(Boolean)`. */
  function Candidates(items: seq<Video>, now: string): seq<Resource>
  {
    Map(Filter(items, EducationalVideo), (v: Video) => ToRecord(v, now))
  }

  /** Every educational video of the answer contributes its record to the list
      that is sorted and cut. */
  lemma CandidatesComplete(items: seq<Video>, now: string, i: int)
    requires 0 <= i < |items| && EducationalVideo(items[i])
    ensures ToRecord(items[i], now) in Candidates(items, now)
  {
    var kept := Filter(items, EducationalVideo);
    var m :| 0 <= m < |kept| && kept[m] == items[i];
    assert Candidates(items, now)[m] == ToRecord(items[i], now);
  }

  /** Every candidate record was built from an educational video of the answer. */
  lemma CandidatesSound(items: seq<Video>, now: string, x: Resource)
    requires x in Candidates(items, now)
    ensures exists i :: 0 <= i < |items| && EducationalVideo(items[i]) && x == ToRecord(items[i], now)
  {
    var kept := Filter(items, EducationalVideo);
    var c := Candidates(items, now);
    var j :| 0 <= j < |c| && c[j] == x;
    assert c[j] == ToRecord(kept[j], now);
    assert kept[j] in items && EducationalVideo(kept[j]);
    var i :| 0 <= i < |items| && items[i] == kept[j];
  }

  /** Every candidate record has a newline-free summary of at most 140
      characters and no rating yet. */
  lemma CandidatesShape(items: seq<Video>, now: string, x: Resource)
    requires x in Candidates(items, now)
    ensures '\n' !in x.summary && |x.summary| <= SummaryLength && x.rating == None
  {
    CandidatesSound(items, now, x);
  }

  function Views(r: Resource): int
  {
    r.views
  }

  /** `.sort((a, b) => b.views - a.views).slice(0, max)`. */
  function Ranked(items: seq<Video>, max: int, now: string): (r: seq<Resource>)
    ensures r <= SortDesc(Candidates(items, now), Views)
    ensures SortedDesc(r, Views)
    ensures 0 <= max ==> |r| == Min(max, |Candidates(items, now)|)
    ensures max < 0 ==> |r| == Max(0, |Candidates(items, now)| + max)
    ensures forall i :: 0 <= i < |r| ==> r[i] in Candidates(items, now)
    ensures |r| <= |Candidates(items, now)|
  {
    var candidates := Candidates(items, now);
    var sorted := SortDesc(candidates, Views);
    SortDescSortedPermutation(candidates, Views);
    SliceFromZero(sorted, max);
    PrefixOfSortMembers(candidates, Views, max);
    Slice(sorted, 0, max)
  }

  // ---------------------------------------------------------------------------
  // AI analysis
  // ---------------------------------------------------------------------------

  /** A summary and a rating in tenths of a star. */
  datatype Analysis = Analysis(summary: string, rating: int)

  /** The completion service's answer: the message content (`''` when the
      answer has none), or a failure of the call itself. */
  datatype Reply = Unreachable | Replied(content: string)

  const FallbackRating := 30
  const SummaryLength := 140

  /** The position of the first `c` in `s`. */
  function IndexOf(s: string, c: char): (r: Option<nat>)
    ensures r.Some? ==> r.value < |s| && s[r.value] == c && c !in s[..r.value]
    ensures r.None? ==> c !in s
    decreases |s|
  {
    if s == [] then None
    else if s[0] == c then Some(0)
    else match IndexOf(s[1..], c)
      case None => None
      case Some(i) =>
        assert s[..i + 1] == [s[0]] + s[1..][..i];
        Some(i + 1)
  }

  /** The position of the last `c` in `s`. */
  function LastIndexOf(s: string, c: char): (r: Option<nat>)
    ensures r.Some? ==> r.value < |s| && s[r.value] == c && c !in s[r.value + 1..]
    ensures r.None? ==> c !in s
    decreases |s|
  {
    if s == [] then None
    else if s[|s| - 1] == c then Some(|s| - 1)
    else match LastIndexOf(s[..|s| - 1], c)
      case None => None
      case Some(i) =>
        assert s[i + 1..] == s[..|s| - 1][i + 1..] + [s[|s| - 1]];
        Some(i)
  }

  /** A '{' somewhere before a '}' in `s`. */
  predicate HasBracePair(s: string)
  {
    exists i, j :: 0 <= i < j < |s| && s[i] == '{' && s[j] == '}'
  }

  /** `content.match(/\{.*\}/s)`: the greedy span from the first '{' to the last
      '}', when a '{' precedes some '}'. */
  function ExtractJson(content: string): (r: Option<string>)
    ensures r.Some? <==> HasBracePair(content)
    ensures r.Some? ==> exists i, j :: 0 <= i < j < |content| && r.value == content[i..j + 1]
                          && content[i] == '{' && '{' !in content[..i]
                          && content[j] == '}' && '}' !in content[j + 1..]
  {
    match (IndexOf(content, '{'), LastIndexOf(content, '}'))
    case (Some(i), Some(j)) =>
      if i < j then
        Some(content[i..j + 1])
      else
        assert !HasBracePair(content) by {
          forall a, b | 0 <= a < b < |content|
            ensures content[a] != '{' || content[b] != '}'
          {
            if a < i {
              assert content[a] in content[..i];
            } else {
              assert content[b] in content[j + 1..];
            }
          }
        }
        None
    case _ => None
  }

  /** `getAIAnalysis(title, description)` for one record: without a key, or when
      the call or `JSON.parse` fails, the fallback is the description's first 140
      characters with rating 3; a reply without a brace pair yields the reply's
      own first 140 characters with rating 3. `parse` stands for `JSON.parse`,
      `None` meaning that it throws. */
  function Analyze(hasKey: bool, description: string, reply: Reply,
                   parse: string -> Option<Analysis>): (a: Analysis)
    ensures a.rating != FallbackRating ==>
              hasKey && reply.Replied? && ExtractJson(reply.content).Some?
              && parse(ExtractJson(reply.content).value) == Some(a)
    ensures !hasKey || reply.Unreachable? ==>
              a.summary <= description && |a.summary| == Min(SummaryLength, |description|)
    ensures hasKey && reply.Replied? && ExtractJson(reply.content).Some?
            && parse(ExtractJson(reply.content).value).Some? ==>
              Some(a) == parse(ExtractJson(reply.content).value)
  {
    SliceFromZero(description, SummaryLength);
    var fallback := Analysis(Slice(description, 0, SummaryLength), FallbackRating);
    if !hasKey then fallback
    else match reply
      case Unreachable => fallback
      case Replied(content) =>
        match ExtractJson(content)
        case Some(span) => parse(span).GetOr(fallback)
        case None => Analysis(Slice(content, 0, SummaryLength), FallbackRating)
  }

  /** Every failure path lands on the same fallback: rating 3 and the longest
      prefix of the description that fits in 140 characters. */
  lemma AnalyzeFallback(hasKey: bool, description: string, reply: Reply,
                        parse: string -> Option<Analysis>)
    requires !hasKey || reply.Unreachable?
          || (reply.Replied? && ExtractJson(reply.content).Some? && parse(ExtractJson(reply.content).value).None?)
    ensures Analyze(hasKey, description, reply, parse).rating == FallbackRating
    ensures Analyze(hasKey, description, reply, parse).summary <= description
    ensures |Analyze(hasKey, description, reply, parse).summary| == Min(SummaryLength, |description|)
  {
    SliceFromZero(description, SummaryLength);
  }

  /** A reply without a brace pair replaces the summary with the reply's own
      text, so an empty reply (an error answer carries no message content)
      empties the summary. */
  lemma AnalyzeReplyWithoutJson(description: string, content: string,
                                parse: string -> Option<Analysis>)
    requires !HasBracePair(content)
    ensures Analyze(true, description, Replied(content), parse).rating == FallbackRating
    ensures Analyze(true, description, Replied(content), parse).summary <= content
    ensures |Analyze(true, description, Replied(content), parse).summary| == Min(SummaryLength, |content|)
    ensures content == "" ==> Analyze(true, description, Replied(content), parse).summary == ""
  {
    SliceFromZero(content, SummaryLength);
  }

  // ---------------------------------------------------------------------------
  // Enrichment
  // ---------------------------------------------------------------------------

  /** `item.summary = ai.summary; item.rating = ai.rating`. */
  function Apply(r: Resource, a: Analysis): Resource
  {
    r.(summary := a.summary, rating := Some(a.rating))
  }

  /** Each record analysed with its own summary as the description; `replies(i)`
      is the completion service's answer for the record at position `i`. */
  function Enrich(items: seq<Resource>, hasKey: bool, replies: nat -> Reply,
                  parse: string -> Option<Analysis>): (r: seq<Resource>)
    ensures |r| == |items|
    ensures forall i :: 0 <= i < |r| ==> r[i].(summary := items[i].summary, rating := items[i].rating) == items[i]
    ensures forall i :: 0 <= i < |r| ==> r[i].rating.Some?
  {
    var r := seq(|items|, i requires 0 <= i < |items| =>
      Apply(items[i], Analyze(hasKey, items[i].summary, replies(i), parse)));
    assert forall i :: 0 <= i < |r| ==> r[i] == Apply(items[i], Analyze(hasKey, items[i].summary, replies(i), parse));
    r
  }

  /** Without a key the loop keeps the length, the order and every summary of
      at most 140 characters, and sets every rating to 3. */
  lemma EnrichWithoutKey(items: seq<Resource>, replies: nat -> Reply, parse: string -> Option<Analysis>)
    requires forall i :: 0 <= i < |items| ==> |items[i].summary| <= SummaryLength
    ensures forall i :: 0 <= i < |items| ==>
              Enrich(items, false, replies, parse)[i] == items[i].(rating := Some(FallbackRating))
  {
    forall i | 0 <= i < |items|
      ensures Enrich(items, false, replies, parse)[i] == items[i].(rating := Some(FallbackRating))
    {
      SliceFromZero(items[i].summary, SummaryLength);
      assert Slice(items[i].summary, 0, SummaryLength) == items[i].summary;
      assert Analyze(false, items[i].summary, replies(i), parse) == Analysis(items[i].summary, FallbackRating);
      assert Enrich(items, false, replies, parse)[i] == Apply(items[i], Analysis(items[i].summary, FallbackRating));
    }
  }

  /** The record at position `j` after its analysis. */
  function Analysed(items: seq<Resource>, hasKey: bool, replies: nat -> Reply,
                    parse: string -> Option<Analysis>, j: int): Resource
    requires 0 <= j < |items|
  {
    Apply(items[j], Analyze(hasKey, items[j].summary, replies(j), parse))
  }

  const BatchSize := 5

  /** One batch of the loop: `Promise.all` over the records at positions `i` to
      `i + 4`, each overwritten in place with its own analysis. Records before
      the batch are already analysed, records after it are untouched. */
  method EnrichBatch(items: seq<Resource>, hasKey: bool, replies: nat -> Reply,
                     parse: string -> Option<Analysis>, current: seq<Resource>, i: nat)
    returns (out: seq<Resource>)
    requires |current| == |items| && i <= |items|
    requires forall j :: 0 <= j < i ==> current[j] == Analysed(items, hasKey, replies, parse, j)
    requires forall j :: i <= j < |items| ==> current[j] == items[j]
    ensures |out| == |items|
    ensures forall j :: 0 <= j < Min(i + BatchSize, |items|) ==> out[j] == Analysed(items, hasKey, replies, parse, j)
    ensures forall j :: Min(i + BatchSize, |items|) <= j < |items| ==> out[j] == items[j]
  {
    out := current;
    var batch := Slice(out, i, i + BatchSize);
    assert |batch| == Min(i + BatchSize, |items|) - i;
    assert forall t :: 0 <= t < |batch| ==> batch[t] == items[i + t];
    var k := 0;
    while k < |batch|
      invariant 0 <= k <= |batch|
      invariant |out| == |items|
      invariant forall j :: 0 <= j < i + k ==> out[j] == Analysed(items, hasKey, replies, parse, j)
      invariant forall j :: i + k <= j < |items| ==> out[j] == items[j]
    {
      var item := batch[k];
      var ai := Analyze(hasKey, item.summary, replies(i + k), parse);
      out := out[i + k := Apply(item, ai)];
      k := k + 1;
    }
  }

  /** The enrichment loop as written: batches of five records, each record of a
      batch overwritten in place. The batches only bound concurrency; the result
      is the record-by-record enrichment. */
  method EnrichInBatches(items: seq<Resource>, hasKey: bool, replies: nat -> Reply,
                         parse: string -> Option<Analysis>) returns (out: seq<Resource>)
    ensures out == Enrich(items, hasKey, replies, parse)
  {
    out := items;
    var i := 0;
    while i < |out|
      invariant 0 <= i
      invariant |out| == |items|
      invariant forall j :: 0 <= j < |items| && j < i ==> out[j] == Analysed(items, hasKey, replies, parse, j)
      invariant forall j :: i <= j < |items| ==> out[j] == items[j]
    {
      out := EnrichBatch(items, hasKey, replies, parse, out, i);
      i := i + BatchSize;
    }
    assert forall j :: 0 <= j < |items| ==> Enrich(items, hasKey, replies, parse)[j] == Analysed(items, hasKey, replies, parse, j);
  }

  // ---------------------------------------------------------------------------
  // The handler
  // ---------------------------------------------------------------------------

  /** What validation leaves: the upstream request and the effective `max`. */
  datatype Planned = Planned(request: SearchRequest, max: int)

  /** Request validation, in source order: the query first, then the provider
      key. `q` is the query parameter (`None` or `""` when missing) and
      `maxParam` the numeric value of `max` (`None` when absent or empty,
      so that `req.query.max || 20` takes the default). */
  function Plan(q: Option<string>, maxParam: Option<int>, ytKey: bool): (r: Result<Planned, Response>)
    ensures q.GetOr("") == "" ==> r == Failure(Response(400, ErrorBody("missing query q")))
    ensures q.GetOr("") != "" && !ytKey ==> r == Failure(Response(500, ErrorBody("YOUTUBE_API_KEY not set")))
    ensures r.Success? <==> q.GetOr("") != "" && ytKey
    ensures r.Success? ==> r.value.request.maxResults <= 50
    ensures r.Success? && maxParam.None? ==> r.value.max == 20 && r.value.request.maxResults == 40
    ensures r.Success? && maxParam.Some? ==> r.value.max == maxParam.value
    ensures r.Success? ==> r.value.request.maxResults == Min(2 * r.value.max, 50)
  {
    var query := q.GetOr("");
    var max := maxParam.GetOr(20);
    if query == "" then Failure(Response(400, ErrorBody("missing query q")))
    else if !ytKey then Failure(Response(500, ErrorBody("YOUTUBE_API_KEY not set")))
    else Success(Planned(UpstreamRequest(query, max), max))
  }

  /** The whole handler. `searchIds` are the video ids of the search answer
      (`""` for an item without one), `details` the items of the details answer,
      `now` the clock reading, `aiKey` whether the completion-service key is set. */
  function Handle(q: Option<string>, maxParam: Option<int>, ytKey: bool,
                  searchIds: seq<string>, details: seq<Video>, now: string,
                  aiKey: bool, replies: nat -> Reply, parse: string -> Option<Analysis>): (r: Response)
    ensures q.GetOr("") == "" ==> r == Response(400, ErrorBody("missing query q"))
    ensures q.GetOr("") != "" && !ytKey ==> r == Response(500, ErrorBody("YOUTUBE_API_KEY not set"))
    ensures r.status == 200 <==> q.GetOr("") != "" && ytKey
    ensures r.status == 200 ==> r.body.ResourceList? && |r.body.items| <= |Filter(details, EducationalVideo)|
    ensures r.status == 200 && VideoIds(searchIds) == [] ==> r.body.items == []
  {
    match Plan(q, maxParam, ytKey)
    case Failure(response) => response
    case Success(plan) =>
      if VideoIds(searchIds) == [] then Response(200, ResourceList([]))
      else Response(200, ResourceList(Enrich(Ranked(details, plan.max, now), aiKey, replies, parse)))
  }

  /** A search without any video id answers an empty list, not an error. */
  lemma HandleNoIds(q: Option<string>, maxParam: Option<int>, searchIds: seq<string>, details: seq<Video>,
                    now: string, aiKey: bool, replies: nat -> Reply, parse: string -> Option<Analysis>)
    requires q.GetOr("") != ""
    requires forall i :: 0 <= i < |searchIds| ==> searchIds[i] == ""
    ensures Handle(q, maxParam, true, searchIds, details, now, aiKey, replies, parse)
         == Response(200, ResourceList([]))
  {
    VideoIdsEmpty(searchIds);
  }

  /** An explicit `max=0` is kept (`"0"` is a truthy string), so the list is cut
      to nothing. */
  lemma HandleExplicitZeroMax(q: string, searchIds: seq<string>, details: seq<Video>, now: string,
                              aiKey: bool, replies: nat -> Reply, parse: string -> Option<Analysis>)
    requires q != ""
    ensures Handle(Some(q), Some(0), true, searchIds, details, now, aiKey, replies, parse)
         == Response(200, ResourceList([]))
  {
  }

  /** Every record of a successful answer is built from an educational video of
      the details answer; only its summary and rating may differ from that
      build. There are at most `max` of them. */
  lemma HandleReturnsOnlyEducational(q: Option<string>, maxParam: Option<int>, ytKey: bool,
                                     searchIds: seq<string>, details: seq<Video>, now: string,
                                     aiKey: bool, replies: nat -> Reply, parse: string -> Option<Analysis>)
    requires Handle(q, maxParam, ytKey, searchIds, details, now, aiKey, replies, parse).body.ResourceList?
    ensures var xs := Handle(q, maxParam, ytKey, searchIds, details, now, aiKey, replies, parse).body.items;
            && (0 <= maxParam.GetOr(20) ==> |xs| <= maxParam.GetOr(20))
            && forall j :: 0 <= j < |xs| ==>
                 exists i :: 0 <= i < |details| && EducationalVideo(details[i])
                   && xs[j].(summary := Summary(details[i].description), rating := None) == ToRecord(details[i], now)
  {
    var xs := Handle(q, maxParam, ytKey, searchIds, details, now, aiKey, replies, parse).body.items;
    if xs != [] {
      var max := maxParam.GetOr(20);
      var ranked := Ranked(details, max, now);
      assert xs == Enrich(ranked, aiKey, replies, parse);
      forall j | 0 <= j < |xs|
        ensures exists i :: 0 <= i < |details| && EducationalVideo(details[i])
                  && xs[j].(summary := Summary(details[i].description), rating := None) == ToRecord(details[i], now)
      {
        CandidatesSound(details, now, ranked[j]);
        var i :| 0 <= i < |details| && EducationalVideo(details[i]) && ranked[j] == ToRecord(details[i], now);
        assert xs[j].(summary := ranked[j].summary, rating := ranked[j].rating) == ranked[j];
      }
    }
  }

  /** Enrichment never touches `views`, so a successful answer stays in
      non-increasing view order with or without the completion-service key. */
  lemma HandleInViewOrder(q: Option<string>, maxParam: Option<int>, ytKey: bool,
                          searchIds: seq<string>, details: seq<Video>, now: string,
                          aiKey: bool, replies: nat -> Reply, parse: string -> Option<Analysis>)
    requires Handle(q, maxParam, ytKey, searchIds, details, now, aiKey, replies, parse).status == 200
    ensures SortedDesc(Handle(q, maxParam, ytKey, searchIds, details, now, aiKey, replies, parse).body.items, Views)
  {
    var xs := Handle(q, maxParam, ytKey, searchIds, details, now, aiKey, replies, parse).body.items;
    if VideoIds(searchIds) != [] {
      var ranked := Ranked(details, maxParam.GetOr(20), now);
      assert xs == Enrich(ranked, aiKey, replies, parse);
      forall i, j | 0 <= i < j < |xs|
        ensures Views(xs[i]) >= Views(xs[j])
      {
        assert xs[i].(summary := ranked[i].summary, rating := ranked[i].rating) == ranked[i];
        assert xs[j].(summary := ranked[j].summary, rating := ranked[j].rating) == ranked[j];
      }
    }
  }

  /** Without the completion-service key the answer is the view-ranked,
      `max`-bounded list of educational records, each rated 3 and keeping its
      first-line summary. */
  lemma HandleWithoutAiKey(q: Option<string>, maxParam: Option<int>, searchIds: seq<string>,
                           details: seq<Video>, now: string,
                           replies: nat -> Reply, parse: string -> Option<Analysis>)
    requires q.GetOr("") != "" && VideoIds(searchIds) != []
    ensures var r := Handle(q, maxParam, true, searchIds, details, now, false, replies, parse);
            var ranked := Ranked(details, maxParam.GetOr(20), now);
            && r.status == 200 && r.body.ResourceList?
            && |r.body.items| == |ranked|
            && SortedDesc(r.body.items, Views)
            && forall i :: 0 <= i < |ranked| ==> r.body.items[i] == ranked[i].(rating := Some(FallbackRating))
  {
    var ranked := Ranked(details, maxParam.GetOr(20), now);
    forall i | 0 <= i < |ranked|
      ensures |ranked[i].summary| <= SummaryLength
    {
      CandidatesShape(details, now, ranked[i]);
    }
    EnrichWithoutKey(ranked, replies, parse);
    var xs := Enrich(ranked, false, replies, parse);
    forall i, j | 0 <= i < j < |xs|
      ensures Views(xs[i]) >= Views(xs[j])
    {
      assert Views(xs[i]) == Views(ranked[i]) && Views(xs[j]) == Views(ranked[j]);
    }
  }
}

=== FILE: backend.dfy ===
/** The Express backend's `/api/search`: validate the request, fetch the
    provider's videos, keep the educational ones with a clamped heuristic
    rating, sort them by rating, and split off the three best picks. */
module Backend {
  import opened Wrappers
  import opened Seqs
  import opened Text
  import opened Records
  import ApiSearch

  // ---------------------------------------------------------------------------
  // Educational keyword filter
  // ---------------------------------------------------------------------------

  const TitleKeywords: seq<string> := ["tutorial", "course", "learn", "lesson", "guide", "how to"]
  const DescriptionKeywords: seq<string> := ["learn", "tutorial", "course outline", "curriculum"]

  /** The lower-cased title holds a title keyword, or the lower-cased
      description holds a description keyword. Both keyword sets are drawn from
      the serverless handler's list, so whatever this filter keeps, that one
      keeps too. */
  function IsEducational(title: string, desc: string): (b: bool)
    ensures b ==> ApiSearch.IsEducational(title, desc)
  {
    ContainsAnySubset(Lower(title), TitleKeywords, ApiSearch.Keywords);
    ContainsAnySubset(Lower(desc), DescriptionKeywords, ApiSearch.Keywords);
    ContainsAny(Lower(title), TitleKeywords) || ContainsAny(Lower(desc), DescriptionKeywords)
  }

  predicate EducationalVideo(v: Video)
  {
    IsEducational(v.title, v.description)
  }

  /** "course" or "guide" in the description alone does not qualify here,
      while the serverless handler accepts both. */
  lemma DescriptionCourseOrGuideRejected()
    ensures !IsEducational("", "course") && ApiSearch.IsEducational("", "course")
    ensures !IsEducational("", "guide") && ApiSearch.IsEducational("", "guide")
  {
    LowerIsLower("");
    LowerIsLower("course");
    LowerIsLower("guide");
    ContainsAnyNeedsRoom("", TitleKeywords);
    assert !Contains("course", "learn") by {
      if Contains("course", "learn") {
        ContainsChars("course", "learn", 'l');
      }
    }
    assert !ContainsAny("course", DescriptionKeywords) by {
      ContainsNeedsRoom("course", "tutorial");
      ContainsNeedsRoom("course", "course outline");
      ContainsNeedsRoom("course", "curriculum");
    }
    assert !ContainsAny("guide", DescriptionKeywords) by {
      if Contains("guide", "learn") {
        ContainsChars("guide", "learn", 'l');
      }
      ContainsNeedsRoom("guide", "tutorial");
      ContainsNeedsRoom("guide", "course outline");
      ContainsNeedsRoom("guide", "curriculum");
    }
    assert OccursAt("course", ApiSearch.Keywords[1], 0);
    assert OccursAt("guide", ApiSearch.Keywords[4], 0);
  }

  /** The keyword that straddles title and description in the serverless
      handler does not count here. */
  lemma NoMatchAcrossBoundary()
    ensures !IsEducational("how", "to") && ApiSearch.IsEducational("how", "to")
  {
    LowerIsLower("how");
    LowerIsLower("to");
    ContainsAnyNeedsRoom("how", TitleKeywords);
    ContainsAnyNeedsRoom("to", DescriptionKeywords);
    ApiSearch.KeywordAcrossBoundary();
  }

  // ---------------------------------------------------------------------------
  // Rating
  // ---------------------------------------------------------------------------

  function RealMin(a: real, b: real): real { if a <= b then a else b }

  function RealMax(a: real, b: real): real { if a <= b then b else a }

  /** `Math.round(y * 10)`: the nearest number of tenths, halves rounded up. */
  function RoundToTenths(y: real): int
  {
    (y * 10.0 + 0.5).Floor
  }

  /** `Math.round(Math.min(5, Math.max(3, 3 + boost)) * 10) / 10`, in tenths, where
      `boost` stands for `combinedScore * timeDecay * 2`, left abstract. */
  function Rating(boost: real): (t: int)
    ensures 30 <= t <= 50
  {
    var clamped := RealMin(5.0, RealMax(3.0, 3.0 + boost));
    assert 30.5 <= clamped * 10.0 + 0.5 <= 50.5;
    RoundToTenths(clamped)
  }

  /** `Math.min(5, Math.max(0, rating))`, in tenths. */
  function FinalRating(boost: real): int
  {
    var t := Rating(boost);
    Min(50, Max(0, t))
  }

  /** The final [0, 5] clamp never changes the [3, 5] rating. */
  lemma FinalClampIsNoOp(boost: real)
    ensures FinalRating(boost) == Rating(boost)
    ensures 30 <= FinalRating(boost) <= 50
  {
  }

  /** A larger boost never lowers the rating; no boost gives 3 stars and a boost
      of 2 or more gives 5. */
  lemma RatingMonotone(a: real, b: real)
    ensures a <= b ==> Rating(a) <= Rating(b)
    ensures a <= 0.0 ==> Rating(a) == 30
    ensures 2.0 <= a ==> Rating(a) == 50
  {
  }

  // ---------------------------------------------------------------------------
  // Normalization
  // ---------------------------------------------------------------------------

  const SummaryLength := 200

  /** The record `normalizeYouTubeVideo` builds for an educational video. */
  function Record(v: Video, boost: real, now: string): Resource
  {
    Resource(v.id, v.title, YouTube, WatchUrl(v.id), Some(FinalRating(boost)), v.viewCount,
             Learning, Thumbnail(v), Slice(v.description, 0, SummaryLength), CreatedAt(v, now))
  }

  /** `normalizeYouTubeVideo(v)`: `null` for a non-educational video. */
  function Normalize(v: Video, boost: real, now: string): (r: Option<Resource>)
    ensures r.None? <==> !EducationalVideo(v)
    ensures r.Some? ==> r.value.url == WatchPrefix + v.id
    ensures r.Some? ==> r.value.category == Learning
    ensures r.Some? ==> r.value.summary <= v.description && |r.value.summary| == Min(SummaryLength, |v.description|)
    ensures r.Some? ==> r.value.rating.Some? && 30 <= r.value.rating.value <= 50
    ensures r.Some? ==> r.value.rating == Some(Rating(boost))
    ensures r.Some? ==> r.value.id == v.id && r.value.title == v.title && r.value.views == v.viewCount
  {
    SliceFromZero(v.description, SummaryLength);
    if EducationalVideo(v) then Some(Record(v, boost, now)) else None
  }

  /** The records of the educational videos, in provider order. `boost(v)` is
      the abstract score of video `v`. */
  function Collected(vids: seq<Video>, boost: Video -> real, now: string): seq<Resource>
  {
    Map(Filter(vids, EducationalVideo), (v: Video) => Record(v, boost(v), now))
  }

  /** `for (const v of vids) { const n = normalize(v); if (n) results.push(n) }`. */
  method CollectNormalized(vids: seq<Video>, boost: Video -> real, now: string)
    returns (results: seq<Resource>)
    ensures results == Collected(vids, boost, now)
  {
    results := [];
    var i := 0;
    while i < |vids|
      invariant 0 <= i <= |vids|
      invariant results == Collected(vids[..i], boost, now)
    {
      var normalized := Normalize(vids[i], boost(vids[i]), now);
      FilterAppend(vids[..i], [vids[i]], EducationalVideo);
      assert vids[..i + 1] == vids[..i] + [vids[i]];
      if normalized.Some? {
        results := results + [normalized.value];
      }
      i := i + 1;
    }
    assert vids[..i] == vids;
  }

  /** Every collected record comes from an educational video, and every
      educational video contributes one record. */
  lemma CollectedExactly(vids: seq<Video>, boost: Video -> real, now: string)
    ensures |Collected(vids, boost, now)| == |Filter(vids, EducationalVideo)|
    ensures forall x :: x in Collected(vids, boost, now) ==>
              exists i :: 0 <= i < |vids| && EducationalVideo(vids[i]) && x == Record(vids[i], boost(vids[i]), now)
    ensures forall i :: 0 <= i < |vids| && EducationalVideo(vids[i]) ==>
              Record(vids[i], boost(vids[i]), now) in Collected(vids, boost, now)
  {
    var kept := Filter(vids, EducationalVideo);
    var c := Collected(vids, boost, now);
    forall x | x in c
      ensures exists i :: 0 <= i < |vids| && EducationalVideo(vids[i]) && x == Record(vids[i], boost(vids[i]), now)
    {
      var j :| 0 <= j < |c| && c[j] == x;
      assert c[j] == Record(kept[j], boost(kept[j]), now);
      assert kept[j] in vids && EducationalVideo(kept[j]);
      var i :| 0 <= i < |vids| && vids[i] == kept[j];
    }
    forall i | 0 <= i < |vids| && EducationalVideo(vids[i])
      ensures Record(vids[i], boost(vids[i]), now) in c
    {
      var m :| 0 <= m < |kept| && kept[m] == vids[i];
      assert c[m] == Record(vids[i], boost(vids[i]), now);
    }
  }

  // ---------------------------------------------------------------------------
  // Fetching and the handler
  // ---------------------------------------------------------------------------

  /** What `fetchYouTubeVideosByQuery` returns: `[]` when the search yields no
      id, otherwise the detail items (the channel statistics it also gathers are
      never read by normalization and are not modelled). */
  datatype Fetched = NoIds | Videos(vids: seq<Video>)

  function FetchVideos(ytKey: bool, searchIds: seq<string>, details: seq<Video>): Result<Fetched, string>
  {
    if !ytKey then Failure("YOUTUBE_API_KEY not set in environment")
    else if VideoIds(searchIds) == [] then Success(NoIds)
    else Success(Videos(details))
  }

  /** `Number(req.query.max) || 20`: a missing, unparsable or zero `max` becomes
      20 (`None` stands for the first two). */
  function EffectiveMax(maxParam: Option<int>): int
  {
    match maxParam
    case Some(m) => if m == 0 then 20 else m
    case None => 20
  }

  /** The only use of `max`: the number of items the upstream search asks for. */
  function Request(q: string, maxParam: Option<int>): (r: SearchRequest)
    ensures r.maxResults <= 50
    ensures (maxParam.None? || maxParam == Some(0)) ==> r.maxResults == 40
    ensures r.maxResults == Min(2 * EffectiveMax(maxParam), 50)
  {
    UpstreamRequest(q, EffectiveMax(maxParam))
  }

  function RatingKey(r: Resource): int
  {
    r.rating.GetOr(0)
  }

  /** The handler. `searchIds` and `details` are the provider's answers to
      `Request(q, maxParam)`; `boost` scores each video; `now` is the clock. */
  function Handle(q: Option<string>, maxParam: Option<int>, ytKey: bool,
                  searchIds: seq<string>, details: seq<Video>,
                  boost: Video -> real, now: string): (r: Response)
    ensures q.GetOr("") == "" ==> r == Response(400, ErrorBody("missing query param q"))
    ensures q.GetOr("") != "" && !ytKey ==> r == Response(500, ErrorBody("YOUTUBE_API_KEY not set in environment"))
    ensures r.status == 200 <==> q.GetOr("") != "" && ytKey && VideoIds(searchIds) != []
    ensures r.status == 200 ==> r.body.Picks?
  {
    if q.GetOr("") == "" then Response(400, ErrorBody("missing query param q"))
    else match FetchVideos(ytKey, searchIds, details)
      case Failure(message) => Response(500, ErrorBody(message))
      // `const { vids } = []` leaves `vids` undefined and `for...of` throws.
      case Success(NoIds) => Response(500, RuntimeError)
      case Success(Videos(vids)) =>
        var sorted := SortDesc(Collected(vids, boost, now), RatingKey);
        Response(200, Picks(Slice(sorted, 0, 3), Slice(sorted, 3, |sorted|)))
  }

  /** A search without any video id is answered with a 500, not an empty list. */
  lemma HandleNoIds(q: string, maxParam: Option<int>, searchIds: seq<string>, details: seq<Video>,
                    boost: Video -> real, now: string)
    requires q != ""
    requires forall i :: 0 <= i < |searchIds| ==> searchIds[i] == ""
    ensures Handle(Some(q), maxParam, true, searchIds, details, boost, now) == Response(500, RuntimeError)
  {
    VideoIdsEmpty(searchIds);
  }

  /** A successful answer: the best picks and the rest together are the
      educational records stably sorted by rating, with nothing cut at `max`;
      there are at most three best picks, and the rest is non-empty only when
      there are exactly three. */
  lemma HandleSplit(q: Option<string>, maxParam: Option<int>, ytKey: bool,
                    searchIds: seq<string>, details: seq<Video>, boost: Video -> real, now: string)
    requires Handle(q, maxParam, ytKey, searchIds, details, boost, now).status == 200
    ensures var b := Handle(q, maxParam, ytKey, searchIds, details, boost, now).body;
            var all := Collected(details, boost, now);
            && b.bestPicks + b.results == SortDesc(all, RatingKey)
            && SortedDesc(b.bestPicks + b.results, RatingKey)
            && |b.bestPicks| + |b.results| == |Filter(details, EducationalVideo)|
            && |b.bestPicks| <= 3
            && (b.results != [] ==> |b.bestPicks| == 3)
            && forall k :: Filter(b.bestPicks + b.results, HasKey(RatingKey, k)) == Filter(all, HasKey(RatingKey, k))
  {
    var all := Collected(details, boost, now);
    var sorted := SortDesc(all, RatingKey);
    SortDescSortedPermutation(all, RatingKey);
    SliceSplit(sorted, 3);
    SliceFromZero(sorted, 3);
    CollectedExactly(details, boost, now);
    forall k
      ensures Filter(sorted, HasKey(RatingKey, k)) == Filter(all, HasKey(RatingKey, k))
    {
      SortDescStable(all, RatingKey, k);
    }
  }

  /** Non-educational videos are dropped: every returned record is the record of
      an educational video of the details answer. */
  lemma HandleReturnsOnlyEducational(q: Option<string>, maxParam: Option<int>, ytKey: bool,
                                     searchIds: seq<string>, details: seq<Video>,
                                     boost: Video -> real, now: string, x: Resource)
    requires Handle(q, maxParam, ytKey, searchIds, details, boost, now).status == 200
    requires x in Handle(q, maxParam, ytKey, searchIds, details, boost, now).body.bestPicks
          || x in Handle(q, maxParam, ytKey, searchIds, details, boost, now).body.results
    ensures exists i :: 0 <= i < |details| && EducationalVideo(details[i])
                        && x == Record(details[i], boost(details[i]), now)
  {
    var all := Collected(details, boost, now);
    var sorted := SortDesc(all, RatingKey);
    var b := Handle(q, maxParam, ytKey, searchIds, details, boost, now).body;
    assert FetchVideos(ytKey, searchIds, details) == Success(Videos(details));
    assert b.bestPicks + b.results == sorted by {
      SliceSplit(sorted, 3);
    }
    assert x in multiset(all) by {
      assert x in sorted;
      SortDescSortedPermutation(all, RatingKey);
    }
    CollectedExactly(details, boost, now);
  }

  /** `max` changes only the upstream request, never the answer to given
      provider data. */
  lemma MaxDoesNotTruncate(q: Option<string>, m1: Option<int>, m2: Option<int>, ytKey: bool,
                           searchIds: seq<string>, details: seq<Video>, boost: Video -> real, now: string)
    ensures Handle(q, m1, ytKey, searchIds, details, boost, now)
         == Handle(q, m2, ytKey, searchIds, details, boost, now)
  {
  }
}

=== FILE: dummy_data.dfy ===
/** The client's built-in catalogue and its search: ask the backend, and when
    that fails, filter the catalogue by a case-insensitive substring match on
    title or category. */
module DummyData {
  import opened Wrappers
  import opened Seqs
  import opened Text
  import opened Records

  /** `dummyData`: eight hand-written resources, ratings in tenths of a star. */
  const DummyResources: seq<Resource> := [
    Resource(
      "1",
      "Full Modern React Tutorial",
      "YouTube",
      "#",
      Some(49),
      2100000,
      "Web Development",
      "https://images.unsplash.com/photo-1633356122544-f134324a6cee?ixlib=rb-4.0.3&ixid=MnwxMjA3fDB8MHxwaG90by1wYWdlfHx8fGVufDB8fHx8&auto=format&fit=crop&w=800&q=60",
      "This resource is highly recommended for its comprehensive coverage of React hooks and modern state management, making it perfect for both beginners and those looking to update their skills.",
      "2023-01-01T00:00:00Z"),
    Resource(
      "2",
      "Figma for Beginners: UI/UX Design",
      "Udemy",
      "#",
      Some(48),
      890000,
      "UI/UX Design",
      "https://images.unsplash.com/photo-1611162617474-5b21e879e113?ixlib=rb-4.0.3&ixid=MnwxMjA3fDB8MHxwaG90by1wYWdlfHx8fGVufDB8fHx8&auto=format&fit=crop&w=800&q=60",
      "A great starting point for aspiring designers. It provides a solid foundation in Figma's tools and UI/UX principles through practical, easy-to-follow examples.",
      "2023-01-02T00:00:00Z"),
    Resource(
      "3",
      "Python for Data Science - Full Course",
      "freeCodeCamp",
      "#",
      Some(49),
      3500000,
      "Data Science",
      "https://images.unsplash.com/photo-1555066931-4365d14bab8c?ixlib=rb-4.0.3&ixid=MnwxMjA3fDB8MHxwaG90by1wYWdlfHx8fGVufDB8fHx8&auto=format&fit=crop&w=800&q=60",
      "An extensive, in-depth course that covers all essential Python libraries for data science. Its project-based approach ensures you gain hands-on experience.",
      "2023-01-03T00:00:00Z"),
    Resource(
      "4",
      "JavaScript Crash Course for Beginners",
      "YouTube",
      "#",
      Some(47),
      5200000,
      "Web Development",
      "https://images.unsplash.com/photo-1579468118864-1b9ea3c0db4a?ixlib=rb-4.0.3&ixid=MnwxMjA3fDB8MHxwaG90by1wYWdlfHx8fGVufDB8fHx8&auto=format&fit=crop&w=800&q=60",
      "This fast-paced course is excellent for quickly grasping the fundamentals of JavaScript. It is well-structured and covers core concepts effectively.",
      "2023-01-04T00:00:00Z"),
    Resource(
      "5",
      "Intro to UI/UX: Principles of User Experience",
      "Coursera",
      "#",
      Some(48),
      450000,
      "UI/UX Design",
      "https://images.unsplash.com/photo-1581291518857-4e27b48ff24e?ixlib=rb-4.0.3&ixid=MnwxMjA3fDB8MHxwaG90by1wYWdlfHx8fGVufDB8fHx8&auto=format&fit=crop&w=800&q=60",
      "Offered by a leading university, this course provides a theoretical and research-backed understanding of UX principles, essential for a strong design career.",
      "2023-01-05T00:00:00Z"),
    Resource(
      "6",
      "Data Analysis with Pandas",
      "Udemy",
      "#",
      Some(47),
      1100000,
      "Data Science",
      "https://images.unsplash.com/photo-1634926878768-2a5b3c42f139?ixlib=rb-4.0.3&ixid=MnwxMjA3fDB8MHxwaG90by1wYWdlfHx8fGVufDB8fHx8&auto=format&fit=crop&w=800&q=60",
      "A practical, hands-on guide to one of the most important data analysis libraries in Python. Great for learners who want to work with real-world datasets.",
      "2023-01-06T00:00:00Z"),
    Resource(
      "7",
      "HTML & CSS Full Course for Beginners",
      "freeCodeCamp",
      "#",
      Some(48),
      7800000,
      "Web Development",
      "https://images.unsplash.com/photo-1542831371-29b0f74f9713?ixlib=rb-4.0.3&ixid=MnwxMjA3fDB8MHxwaG90by1wYWdlfHx8fGVufDB8fHx8&auto=format&fit=crop&w=800&q=60",
      "The definitive starting point for any web developer. This exhaustive course covers everything from the basics to advanced concepts like Flexbox and Grid.",
      "2023-01-07T00:00:00Z"),
    Resource(
      "8",
      "Advanced Figma: Prototyping and Animations",
      "YouTube",
      "#",
      Some(49),
      760000,
      "UI/UX Design",
      "https://images.unsplash.com/photo-1587440871875-191322ee64b0?ixlib=rb-4.0.3&ixid=MnwxMjA3fDB8MHxwaG90by1wYWdlfHx8fGVufDB8fHx8&auto=format&fit=crop&w=800&q=60",
      "Takes your Figma skills to the next level. This tutorial is praised for its clear explanations of complex features like Smart Animate and interactive components.",
      "2023-01-08T00:00:00Z")
  ]

  /** The ids '1' to '8' are pairwise distinct, so each item has its own key. */
  lemma DummyIdsDistinct()
    ensures |DummyResources| == 8
    ensures forall i, j :: 0 <= i < j < |DummyResources| ==> DummyResources[i].id != DummyResources[j].id
  {
  }

  /** Every catalogue item is rated at least 4.5 stars and none has the
      category 'Learning'. */
  lemma DummyRatingsAndCategories()
    ensures forall i :: 0 <= i < |DummyResources| ==>
              DummyResources[i].rating.Some? && 45 <= DummyResources[i].rating.value <= 50
    ensures forall i :: 0 <= i < |DummyResources| ==> DummyResources[i].category != Learning
  {
  }

  /** The first four items carry the ids '1' to '4'. */
  lemma FirstIds()
    ensures |DummyResources| == 8
    ensures forall i :: 0 <= i < 4 ==> DummyResources[i].id == ["1234"[i]]
  {
  }

  /** `getResources()`: the whole catalogue, unchanged. */
  function GetResources(): (r: seq<Resource>)
    ensures r == DummyResources
    ensures |r| == 8
    ensures forall i, j :: 0 <= i < j < |r| ==> r[i].id != r[j].id
    ensures forall i :: 0 <= i < |r| ==> r[i].rating.Some? && 45 <= r[i].rating.value <= 50
  {
    DummyIdsDistinct();
    DummyRatingsAndCategories();
    DummyResources
  }

  /** The item's lower-cased title or lower-cased category contains the
      (already lower-cased) query. */
  predicate Matches(lowerQuery: string, item: Resource)
  {
    Contains(Lower(item.title), lowerQuery) || Contains(Lower(item.category), lowerQuery)
  }

  function MatchesQuery(lowerQuery: string): Resource -> bool
  {
    item => Matches(lowerQuery, item)
  }

  /** The offline fallback of `searchResources`: exactly the catalogue items
      whose lower-cased title or category contains the lower-cased query, in
      catalogue order. */
  function FallbackSearch(query: string): (r: seq<Resource>)
    ensures IsSubsequence(r, DummyResources)
    ensures forall i :: 0 <= i < |r| ==> r[i] in DummyResources && Matches(Lower(query), r[i])
    ensures forall i :: 0 <= i < |DummyResources| && Matches(Lower(query), DummyResources[i]) ==>
              DummyResources[i] in r
  {
    FilterIsSubsequence(DummyResources, MatchesQuery(Lower(query)));
    Filter(DummyResources, MatchesQuery(Lower(query)))
  }

  /** How the backend call ended, as `searchResources` sees it: a network
      failure, or an HTTP response. */
  datatype BackendReply = Unreachable | Answered(response: Response)

  /** `searchResources(query)`: an empty query gives `[]` without asking the
      backend; an `ok` response's JSON body is returned as it is (whatever its
      shape); a failed call or a non-`ok` status falls back to the catalogue. */
  function SearchResources(query: string, reply: BackendReply): (r: Body)
    ensures query == "" ==> r == ResourceList([])
    ensures query != "" && reply.Answered? && 200 <= reply.response.status < 300 ==> r == reply.response.body
    ensures query != "" && !(reply.Answered? && 200 <= reply.response.status < 300) ==>
              r.ResourceList? && IsSubsequence(r.items, DummyResources)
    ensures query != "" && !(reply.Answered? && 200 <= reply.response.status < 300) ==>
              r == ResourceList(FallbackSearch(query))
  {
    if query == "" then ResourceList([])
    else if reply.Answered? && 200 <= reply.response.status < 300 then reply.response.body
    else ResourceList(FallbackSearch(query))
  }

  /** Queries that differ only in the case of ASCII letters find the same items. */
  lemma FallbackCaseInsensitive(q1: string, q2: string)
    requires Lower(q1) == Lower(q2)
    ensures FallbackSearch(q1) == FallbackSearch(q2)
  {
  }
}

=== FILE: records.dfy ===
/** The records that flow through the search pipeline: the provider's video
    items as they arrive, the normalized resources handed to the client, and
    the HTTP responses of the two search handlers. */
module Records {
  import opened Wrappers
  import Seqs

  /** One item of the provider's video-details answer. The empty string stands
      for a field that is missing: every read of these fields in the handlers
      tests only whether it is truthy (`||`, `?.`), so `''` behaves exactly like
      a missing field. A missing view count reads as 0. */
  datatype Video = Video(
    id: string,
    title: string,
    description: string,
    viewCount: nat,
    thumbnailHigh: string,
    thumbnailDefault: string,
    publishedAt: string)

  /** A normalized resource as the client receives it. Ratings are counted in
      tenths of a star (4.9 stars is 49); `None` is a record whose rating has not
      been assigned yet (a JavaScript `undefined`). */
  datatype Resource = Resource(
    id: string,
    title: string,
    provider: string,
    url: string,
    rating: Option<int>,
    views: int,
    category: string,
    thumbnail: string,
    summary: string,
    createdAt: string)

  /** The body of an HTTP response. `RuntimeError` is a 500 whose message text
      comes from the JavaScript runtime and is not modelled. */
  datatype Body =
    | ErrorBody(error: string)
    | RuntimeError
    | ResourceList(items: seq<Resource>)
    | Picks(bestPicks: seq<Resource>, results: seq<Resource>)

  datatype Response = Response(status: int, body: Body)

  /** The upstream search call a handler issues: the query widened with
      educational terms, and the number of items requested. */
  datatype SearchRequest = SearchRequest(query: string, maxResults: int)

  const YouTube := "YouTube"
  const Learning := "Learning"
  const WatchPrefix := "https://www.youtube.com/watch?v="

  /** The query sent upstream for the user's query `q`. */
  function EduQuery(q: string): string
  {
    q + " (tutorial OR course OR learn OR lesson OR beginners)"
  }

  /** The upstream request for a user query and an effective `max`:
      `Math.min(max * 2, 50)` items. */
  function UpstreamRequest(q: string, max: int): (r: SearchRequest)
    ensures r.maxResults <= 50
    ensures max <= 25 ==> r.maxResults == 2 * max
    ensures 25 <= max ==> r.maxResults == 50
  {
    SearchRequest(EduQuery(q), if max * 2 < 50 then max * 2 else 50)
  }

  function WatchUrl(id: string): string
  {
    WatchPrefix + id
  }

  /** `thumbnails.high?.url || thumbnails.default?.url || ''`. */
  function Thumbnail(v: Video): string
  {
    if v.thumbnailHigh != "" then v.thumbnailHigh else v.thumbnailDefault
  }

  /** `publishedAt || new Date().toISOString()`, with the clock reading given. */
  function CreatedAt(v: Video, now: string): string
  {
    if v.publishedAt != "" then v.publishedAt else now
  }

  /** The ids of the search answer that `.filter(Boolean)` keeps. */
  function VideoIds(searchIds: seq<string>): seq<string>
  {
    Seqs.Filter(searchIds, (id: string) => id != "")
  }

  /** The ids joined with ',' are empty exactly when every id is missing. */
  lemma VideoIdsEmpty(searchIds: seq<string>)
    ensures VideoIds(searchIds) == [] <==> forall i :: 0 <= i < |searchIds| ==> searchIds[i] == ""
  {
    Seqs.FilterEmpty(searchIds, (id: string) => id != "");
  }
}

=== FILE: resources_page.dfy ===
/** The selections the "Popular Resources" page makes from the list it loads:
    the "Top Rated" row and the "Learning" row. Rendering is not modelled. */
module ResourcesPage {
  import opened Wrappers
  import opened Seqs
  import opened Records
  import DummyData
  import ApiSearch
  import Backend

  /** `r.rating >= 4.5`; an unassigned rating compares false. */
  predicate IsTopRated(r: Resource)
  {
    r.rating.Some? && r.rating.value >= 45
  }

  /** `r.category === 'Learning'`. */
  predicate IsLearning(r: Resource)
  {
    r.category == Learning
  }

  /** `allResources.filter(r => r.rating >= 4.5).slice(0, 4)`. */
  function TopRated(all: seq<Resource>): (r: seq<Resource>)
    ensures |r| <= 4
    ensures forall i :: 0 <= i < |r| ==> IsTopRated(r[i])
    ensures r <= Filter(all, IsTopRated)
    ensures |r| == Min(4, |Filter(all, IsTopRated)|)
  {
    SliceFromZero(Filter(all, IsTopRated), 4);
    Slice(Filter(all, IsTopRated), 0, 4)
  }

  /** `resources.filter(r => r.category === 'Learning')`. */
  function LearningResources(all: seq<Resource>): (r: seq<Resource>)
    ensures IsSubsequence(r, all)
    ensures forall i :: 0 <= i < |r| ==> r[i] in all && IsLearning(r[i])
    ensures forall i :: 0 <= i < |all| && IsLearning(all[i]) ==> all[i] in r
    ensures |r| == |set i | 0 <= i < |all| && IsLearning(all[i])|
  {
    FilterIsSubsequence(all, IsLearning);
    FilterCount(all, IsLearning);
    assert Positions(all, IsLearning) == set i | 0 <= i < |all| && IsLearning(all[i]);
    Filter(all, IsLearning)
  }

  /** What the page holds after loading: every resource, and the two rows. */
  datatype Selections = Selections(all: seq<Resource>, topRated: seq<Resource>, learning: seq<Resource>)

  /** The list the page works on: the body of an `ok` response when it is a
      list; otherwise the catalogue, because a non-`ok` status throws and a
      non-list body (an error object, or the backend's best-picks object) has
      no `filter` and throws inside the same `try`. */
  function Loaded(response: Response): seq<Resource>
  {
    if 200 <= response.status < 300 && response.body.ResourceList? then response.body.items
    else DummyData.DummyResources
  }

  /** The page after loading: the two rows are taken from the loaded list. */
  function Load(response: Response): (s: Selections)
    ensures 200 <= response.status < 300 && response.body.ResourceList? ==> s.all == response.body.items
    ensures !(200 <= response.status < 300 && response.body.ResourceList?) ==> s.all == DummyData.DummyResources
    ensures |s.topRated| <= 4 && s.topRated <= Filter(s.all, IsTopRated)
    ensures IsSubsequence(s.learning, s.all)
    ensures s.topRated == TopRated(s.all)
    ensures s.learning == LearningResources(s.all)
  {
    var all := Loaded(response);
    Selections(all, TopRated(all), LearningResources(all))
  }

  /** A list rated 4.5 stars or more throughout, of at least four items, shows
      its first four in the "Top Rated" row. */
  lemma TopRatedOfWellRated(all: seq<Resource>)
    requires |all| >= 4
    requires forall i :: 0 <= i < |all| ==> IsTopRated(all[i])
    ensures TopRated(all) == all[..4]
  {
    FilterAll(all, IsTopRated);
  }

  /** A list without a 'Learning' item has an empty "Learning" row. */
  lemma LearningOfOtherCategories(all: seq<Resource>)
    requires forall i :: 0 <= i < |all| ==> !IsLearning(all[i])
    ensures LearningResources(all) == []
  {
    FilterEmpty(all, IsLearning);
  }

  /** The rows computed from the catalogue itself. */
  lemma CatalogueSelections()
    ensures TopRated(DummyData.DummyResources) == DummyData.DummyResources[..4]
    ensures LearningResources(DummyData.DummyResources) == []
  {
    DummyData.DummyRatingsAndCategories();
    TopRatedOfWellRated(DummyData.DummyResources);
    LearningOfOtherCategories(DummyData.DummyResources);
  }

  /** On the catalogue fallback the "Top Rated" row is the items with ids 1 to 4
      and the "Learning" row is empty: no catalogue item has that category. */
  lemma FallbackSelections(response: Response)
    requires !(200 <= response.status < 300 && response.body.ResourceList?)
    ensures Load(response)
         == Selections(DummyData.DummyResources, DummyData.DummyResources[..4], [])
  {
    CatalogueSelections();
  }

  /** The backend's answer is never a list, so the page always shows the
      catalogue when it reaches that handler. */
  lemma BackendAnswerFallsBack(q: Option<string>, maxParam: Option<int>, ytKey: bool,
                               searchIds: seq<string>, details: seq<Video>,
                               boost: Video -> real, now: string)
    ensures Load(Backend.Handle(q, maxParam, ytKey, searchIds, details, boost, now)).all
         == DummyData.DummyResources
  {
  }

  /** Fed by the serverless handler with the provider key set and without a
      completion-service key, every
      rating is 3 stars: the "Top Rated" row is empty and the "Learning" row is
      the whole list. */
  lemma ServerlessWithoutAiKey(searchIds: seq<string>, details: seq<Video>, now: string,
                               replies: nat -> ApiSearch.Reply,
                               parse: string -> Option<ApiSearch.Analysis>)
    ensures var s := Load(ApiSearch.Handle(Some("javascript"), Some(15), true, searchIds, details,
                                           now, false, replies, parse));
            && s.topRated == []
            && s.learning == s.all
            && |s.all| <= 15
  {
    var response := ApiSearch.Handle(Some("javascript"), Some(15), true, searchIds, details,
                                     now, false, replies, parse);
    if VideoIds(searchIds) != [] {
      ApiSearch.HandleWithoutAiKey(Some("javascript"), Some(15), searchIds, details, now, replies, parse);
      var xs := response.body.items;
      var ranked := ApiSearch.Ranked(details, 15, now);
      forall i | 0 <= i < |xs|
        ensures !IsTopRated(xs[i]) && IsLearning(xs[i])
      {
        ApiSearch.CandidatesShape(details, now, ranked[i]);
        ApiSearch.CandidatesSound(details, now, ranked[i]);
      }
      FilterEmpty(xs, IsTopRated);
      FilterAll(xs, IsLearning);
    }
  }
}

=== FILE: seqs.dfy ===
/** Generic sequence operations with the JavaScript array semantics the search
    pipeline relies on: `filter`, `map`, `slice`, and the stable sort that
    `arr.sort((a, b) => key(b) - key(a))` performs (ECMAScript 2019 and later
    require `Array.prototype.sort` to be stable). */
module Seqs {

  /** `a` is an order-preserving subsequence of `b`. */
  predicate IsSubsequence<T(==)>(a: seq<T>, b: seq<T>)
    decreases |b|
  {
    a == [] || (b != [] && ((a[0] == b[0] && IsSubsequence(a[1..], b[1..])) || IsSubsequence(a, b[1..])))
  }

  /** `Array.prototype.filter`: the elements satisfying `p`, in their original order. */
  function Filter<T(==)>(s: seq<T>, p: T -> bool): (r: seq<T>)
    ensures |r| <= |s|
    ensures forall i :: 0 <= i < |r| ==> r[i] in s && p(r[i])
    ensures forall i :: 0 <= i < |s| && p(s[i]) ==> s[i] in r
    decreases |s|
  {
    if s == [] then []
    else if p(s[0]) then [s[0]] + Filter(s[1..], p)
    else Filter(s[1..], p)
  }

  /** `Array.prototype.map`. */
  function Map<T, U>(s: seq<T>, f: T -> U): (r: seq<U>)
    ensures |r| == |s|
  {
    seq(|s|, i requires 0 <= i < |s| => f(s[i]))
  }

  /** A relative index resolved the way `slice` resolves it: a negative index
      counts from the end, and the result is clamped into [0, len]. */
  function RelativeIndex(i: int, len: nat): (r: nat)
    ensures r <= len
    ensures 0 <= i ==> r == if i < len then i else len
    ensures i < 0 ==> r == if len + i < 0 then 0 else len + i
  {
    if i < 0 then (if len + i < 0 then 0 else len + i)
    else if i > len then len
    else i
  }

  /** `Array.prototype.slice(start, end)` (and `String.prototype.slice`). */
  function Slice<T>(s: seq<T>, start: int, end: int): seq<T>
  {
    var from := RelativeIndex(start, |s|);
    var to := RelativeIndex(end, |s|);
    if from < to then s[from..to] else []
  }

  function Min(a: int, b: int): int { if a <= b then a else b }

  function Max(a: int, b: int): int { if a <= b then b else a }

  /** `slice(0, n)` is the prefix of length `n` clamped to the sequence when
      `n` is non-negative, and drops the last `-n` elements otherwise. */
  lemma SliceFromZero<T>(s: seq<T>, n: int)
    ensures Slice(s, 0, n) <= s
    ensures 0 <= n ==> |Slice(s, 0, n)| == Min(n, |s|)
    ensures n < 0 ==> |Slice(s, 0, n)| == Max(0, |s| + n)
  {
  }

  /** `slice(0, n)` and `slice(n)` split a sequence without losing or
      repeating an element. */
  lemma SliceSplit<T>(s: seq<T>, n: nat)
    ensures Slice(s, 0, n) + Slice(s, n, |s|) == s
  {
    if n < |s| {
      assert s[0..n] + s[n..|s|] == s;
    }
  }

  /** Every element of a filtered sequence is taken from the input, in order. */
  lemma {:induction false} FilterIsSubsequence<T>(s: seq<T>, p: T -> bool)
    ensures IsSubsequence(Filter(s, p), s)
    decreases |s|
  {
    if s != [] {
      FilterIsSubsequence(s[1..], p);
      if !p(s[0]) {
        SubsequenceOfTail(Filter(s[1..], p), s);
      }
    }
  }

  /** A subsequence of the tail is a subsequence of the whole. */
  lemma {:induction false} SubsequenceOfTail<T>(a: seq<T>, b: seq<T>)
    requires b != [] && IsSubsequence(a, b[1..])
    ensures IsSubsequence(a, b)
  {
  }

  /** Filtering distributes over concatenation. */
  lemma {:induction false} FilterAppend<T>(a: seq<T>, b: seq<T>, p: T -> bool)
    ensures Filter(a + b, p) == Filter(a, p) + Filter(b, p)
    decreases |a|
  {
    if a == [] {
      assert a + b == b;
    } else {
      assert (a + b)[0] == a[0];
      assert (a + b)[1..] == a[1..] + b;
      FilterAppend(a[1..], b, p);
    }
  }

  /** A filter comes out empty exactly when no element satisfies the predicate. */
  lemma {:induction false} FilterEmpty<T>(s: seq<T>, p: T -> bool)
    ensures Filter(s, p) == [] <==> forall i :: 0 <= i < |s| ==> !p(s[i])
    decreases |s|
  {
    if s != [] {
      FilterEmpty(s[1..], p);
      if !p(s[0]) {
        forall i | 0 <= i < |s| && !p(s[0]) && (forall j :: 0 <= j < |s[1..]| ==> !p(s[1..][j]))
          ensures !p(s[i])
        {
          if i > 0 {
            assert s[i] == s[1..][i - 1];
          }
        }
      }
    }
  }

  /** The positions of `s` whose element satisfies `p`. */
  function Positions<T>(s: seq<T>, p: T -> bool): set<int>
  {
    set i | 0 <= i < |s| && p(s[i])
  }

  /** Appending one element adds its own position when it satisfies `p`. */
  lemma PositionsSnoc<T>(init: seq<T>, x: T, p: T -> bool)
    ensures Positions(init + [x], p) == if p(x) then Positions(init, p) + {|init|} else Positions(init, p)
  {
    var s := init + [x];
    assert forall i :: 0 <= i < |init| ==> s[i] == init[i];
    assert s[|init|] == x;
  }

  /** A filter keeps one element per position whose element satisfies the
      predicate, so repeated elements are kept as often as they occur. */
  lemma {:induction false} FilterCount<T>(s: seq<T>, p: T -> bool)
    ensures |Filter(s, p)| == |Positions(s, p)|
    decreases |s|
  {
    if s != [] {
      var init, x := s[..|s| - 1], s[|s| - 1];
      assert s == init + [x];
      FilterAppend(init, [x], p);
      FilterCount(init, p);
      PositionsSnoc(init, x, p);
      assert |init| !in Positions(init, p);
    }
  }

  /** Filtering with a predicate every element satisfies changes nothing. */
  lemma {:induction false} FilterAll<T>(s: seq<T>, p: T -> bool)
    requires forall i :: 0 <= i < |s| ==> p(s[i])
    ensures Filter(s, p) == s
    decreases |s|
  {
    if s != [] {
      FilterAll(s[1..], p);
    }
  }

  // ---------------------------------------------------------------------------
  // Stable sort in descending order of an integer key.
  // ---------------------------------------------------------------------------

  /** `t` is in non-increasing key order. */
  predicate SortedDesc<T>(t: seq<T>, key: T -> int)
  {
    forall i, j :: 0 <= i < j < |t| ==> key(t[i]) >= key(t[j])
  }

  /** The predicate "has key `k`", used to state stability. */
  function HasKey<T>(key: T -> int, k: int): T -> bool
  {
    x => key(x) == k
  }

  /** Inserts `x`, which precedes every element of `t` in the input, before the
      first element whose key does not exceed its own: the comparator
      `key(b) - key(a)` moves `x` behind an element only if that element's key
      is strictly greater. */
  function Insert<T>(x: T, t: seq<T>, key: T -> int): seq<T>
    decreases |t|
  {
    if t == [] || key(t[0]) <= key(x) then [x] + t
    else [t[0]] + Insert(x, t[1..], key)
  }

  /** `s.sort((a, b) => key(b) - key(a))`, modelled as a stable insertion sort. */
  function SortDesc<T>(s: seq<T>, key: T -> int): seq<T>
    decreases |s|
  {
    if s == [] then [] else Insert(s[0], SortDesc(s[1..], key), key)
  }

  lemma {:induction false} InsertPermutation<T>(x: T, t: seq<T>, key: T -> int)
    ensures multiset(Insert(x, t, key)) == multiset{x} + multiset(t)
    decreases |t|
  {
    if t != [] && key(t[0]) > key(x) {
      InsertPermutation(x, t[1..], key);
      assert t == [t[0]] + t[1..];
    }
  }

  lemma {:induction false} InsertSorted<T>(x: T, t: seq<T>, key: T -> int)
    requires SortedDesc(t, key)
    ensures SortedDesc(Insert(x, t, key), key)
    decreases |t|
  {
    if t != [] && key(t[0]) > key(x) {
      var rest := Insert(x, t[1..], key);
      InsertSorted(x, t[1..], key);
      InsertPermutation(x, t[1..], key);
      forall j | 0 <= j < |rest|
        ensures key(t[0]) >= key(rest[j])
      {
        assert rest[j] in multiset(rest);
        if rest[j] != x {
          assert rest[j] in multiset(t[1..]);
          var m :| 0 <= m < |t[1..]| && t[1..][m] == rest[j];
          assert t[m + 1] == rest[j];
        }
      }
      assert Insert(x, t, key) == [t[0]] + rest;
    }
  }

  /** The sort puts its input in non-increasing key order without adding,
      dropping or duplicating an element. */
  lemma {:induction false} SortDescSortedPermutation<T>(s: seq<T>, key: T -> int)
    ensures SortedDesc(SortDesc(s, key), key)
    ensures multiset(SortDesc(s, key)) == multiset(s)
    ensures |SortDesc(s, key)| == |s|
    decreases |s|
  {
    if s != [] {
      SortDescSortedPermutation(s[1..], key);
      InsertSorted(s[0], SortDesc(s[1..], key), key);
      InsertPermutation(s[0], SortDesc(s[1..], key), key);
      assert s == [s[0]] + s[1..];
    }
    assert |multiset(SortDesc(s, key))| == |multiset(s)|;
  }

  lemma {:induction false} InsertStable<T>(x: T, t: seq<T>, key: T -> int, k: int)
    ensures Filter(Insert(x, t, key), HasKey(key, k))
         == (if key(x) == k then [x] else []) + Filter(t, HasKey(key, k))
    decreases |t|
  {
    var p := HasKey(key, k);
    if t == [] || key(t[0]) <= key(x) {
      assert ([x] + t)[1..] == t;
    } else {
      InsertStable(x, t[1..], key, k);
      assert ([t[0]] + Insert(x, t[1..], key))[1..] == Insert(x, t[1..], key);
    }
  }

  /** Stability: for every key, the elements carrying that key appear in the
      output exactly as they appear in the input. */
  lemma {:induction false} SortDescStable<T>(s: seq<T>, key: T -> int, k: int)
    ensures Filter(SortDesc(s, key), HasKey(key, k)) == Filter(s, HasKey(key, k))
    decreases |s|
  {
    if s != [] {
      SortDescStable(s[1..], key, k);
      InsertStable(s[0], SortDesc(s[1..], key), key, k);
    }
  }

  /** The first element of a sequence heads the filter for its own key, and
      the filter for any other key skips it. */
  lemma FilterHead<T>(s: seq<T>, key: T -> int, k: int)
    requires s != []
    ensures Filter(s, HasKey(key, k))
         == (if key(s[0]) == k then [s[0]] else []) + Filter(s[1..], HasKey(key, k))
  {
  }

  /** A sequence in non-increasing key order is determined by its per-key
      subsequences. */
  lemma {:induction false} SortedStableUnique<T>(a: seq<T>, b: seq<T>, key: T -> int)
    requires SortedDesc(a, key) && SortedDesc(b, key)
    requires forall k :: Filter(a, HasKey(key, k)) == Filter(b, HasKey(key, k))
    ensures a == b
    decreases |a| + |b|
  {
    if a == [] || b == [] {
      if a != [] {
        FilterHead(a, key, key(a[0]));
      } else if b != [] {
        FilterHead(b, key, key(b[0]));
      }
    } else {
      HeadKeysAgree(a, b, key);
      HeadKeysAgree(b, a, key);
      var m := key(a[0]);
      FilterHead(a, key, m);
      FilterHead(b, key, m);
      assert Filter(a, HasKey(key, m))[0] == a[0];
      assert a[0] == b[0];
      forall k
        ensures Filter(a[1..], HasKey(key, k)) == Filter(b[1..], HasKey(key, k))
      {
        FilterHead(a, key, k);
        FilterHead(b, key, k);
        if k == m {
          assert Filter(a, HasKey(key, k))[1..] == Filter(a[1..], HasKey(key, k));
          assert Filter(b, HasKey(key, k))[1..] == Filter(b[1..], HasKey(key, k));
        }
      }
      SortedDescTail(a, key);
      SortedDescTail(b, key);
      SortedStableUnique(a[1..], b[1..], key);
      assert a == [a[0]] + a[1..];
      assert b == [b[0]] + b[1..];
    }
  }

  /** Two non-empty sorted sequences with the same per-key subsequences start
      with the same key (one direction; apply twice). */
  lemma HeadKeysAgree<T>(a: seq<T>, b: seq<T>, key: T -> int)
    requires a != [] && b != []
    requires SortedDesc(b, key)
    requires forall k :: Filter(a, HasKey(key, k)) == Filter(b, HasKey(key, k))
    ensures key(a[0]) <= key(b[0])
  {
    var m := key(a[0]);
    FilterHead(a, key, m);
    var f := Filter(b, HasKey(key, m));
    assert f[0] == a[0];
    assert f[0] in b;
    var j :| 0 <= j < |b| && b[j] == a[0];
    assert key(b[0]) >= key(b[j]);
  }

  lemma SortedDescTail<T>(t: seq<T>, key: T -> int)
    requires t != [] && SortedDesc(t, key)
    ensures SortedDesc(t[1..], key)
  {
    forall i, j | 0 <= i < j < |t| - 1
      ensures key(t[1..][i]) >= key(t[1..][j])
    {
      assert t[1..][i] == t[i + 1] && t[1..][j] == t[j + 1];
    }
  }

  /** Reference characterization of the sort: its output is the one and only
      sequence that is in non-increasing key order and keeps, for every key,
      the input's order among the elements carrying that key. */
  lemma SortDescCharacterized<T>(s: seq<T>, r: seq<T>, key: T -> int)
    ensures r == SortDesc(s, key)
        <==> SortedDesc(r, key) && forall k :: Filter(r, HasKey(key, k)) == Filter(s, HasKey(key, k))
  {
    SortDescSortedPermutation(s, key);
    forall k
      ensures Filter(SortDesc(s, key), HasKey(key, k)) == Filter(s, HasKey(key, k))
    {
      SortDescStable(s, key, k);
    }
    if SortedDesc(r, key) && forall k :: Filter(r, HasKey(key, k)) == Filter(s, HasKey(key, k)) {
      SortedStableUnique(r, SortDesc(s, key), key);
    }
  }

  /** Every element of a prefix of the sorted sequence comes from the input. */
  lemma PrefixOfSortMembers<T>(s: seq<T>, key: T -> int, n: int)
    ensures forall i :: 0 <= i < |Slice(SortDesc(s, key), 0, n)| ==> Slice(SortDesc(s, key), 0, n)[i] in s
  {
    var sorted := SortDesc(s, key);
    SortDescSortedPermutation(s, key);
    SliceFromZero(sorted, n);
    forall i | 0 <= i < |Slice(sorted, 0, n)|
      ensures Slice(sorted, 0, n)[i] in s
    {
      assert Slice(sorted, 0, n)[i] == sorted[i];
      assert sorted[i] in multiset(sorted);
    }
  }
}

=== FILE: text.dfy ===
/** String predicates used by the keyword filters and the fallback search:
    ASCII `toLowerCase`, `includes`, and the first line of a text. Strings are
    sequences of characters; only the ASCII letters have a case mapping here. */
module Text {

  /** `c.toLowerCase()` for the ASCII letters; every other character is kept. */
  function LowerChar(c: char): char
  {
    if 'A' <= c <= 'Z' then (c as int + 32) as char else c
  }

  /** `s.toLowerCase()`, character by character. */
  function Lower(s: string): string
  {
    seq(|s|, i requires 0 <= i < |s| => LowerChar(s[i]))
  }

  /** `s` holds no upper-case ASCII letter. */
  predicate IsLower(s: string)
  {
    forall i :: 0 <= i < |s| ==> !('A' <= s[i] <= 'Z')
  }

  /** `k` occurs in `s` starting at position `i`. */
  predicate OccursAt(s: string, k: string, i: int)
  {
    0 <= i <= |s| - |k| && s[i..i + |k|] == k
  }

  /** `s.includes(k)`: `k` occurs in `s` starting at some position. */
  predicate Contains(s: string, k: string)
  {
    exists i | 0 <= i <= |s| - |k| :: OccursAt(s, k, i)
  }

  /** `keys.some(k => s.includes(k))`. */
  predicate ContainsAny(s: string, keys: seq<string>)
  {
    exists j :: 0 <= j < |keys| && Contains(s, keys[j])
  }

  /** `s.split('\n')[0]`: the longest prefix of `s` without a line break. */
  function FirstLine(s: string): (r: string)
    ensures r <= s
    ensures '\n' !in r
    ensures |r| < |s| ==> s[|r|] == '\n'
    decreases |s|
  {
    if s == [] || s[0] == '\n' then [] else [s[0]] + FirstLine(s[1..])
  }

  /** Lower-casing yields a lower-case string of the same length, and fixes
      every string that is already lower case. */
  lemma LowerIsLower(s: string)
    ensures |Lower(s)| == |s|
    ensures IsLower(Lower(s))
    ensures IsLower(s) ==> Lower(s) == s
  {
  }

  /** Lower-casing commutes with concatenation. */
  lemma LowerAppend(a: string, b: string)
    ensures Lower(a + b) == Lower(a) + Lower(b)
  {
  }

  /** A keyword longer than the text never occurs in it. */
  lemma ContainsNeedsRoom(s: string, k: string)
    ensures Contains(s, k) ==> |k| <= |s|
  {
  }

  /** Every character of an occurring keyword is a character of the text. */
  lemma ContainsChars(s: string, k: string, c: char)
    requires Contains(s, k) && c in k
    ensures c in s
  {
    var i :| 0 <= i <= |s| - |k| && OccursAt(s, k, i);
    var m :| 0 <= m < |k| && k[m] == c;
    assert s[i + m] == s[i..i + |k|][m];
  }

  /** An occurrence in either part is an occurrence in the concatenation. */
  lemma ContainsAppend(a: string, b: string, k: string)
    ensures Contains(a, k) ==> Contains(a + b, k)
    ensures Contains(b, k) ==> Contains(a + b, k)
  {
    if Contains(a, k) {
      var i :| 0 <= i <= |a| - |k| && OccursAt(a, k, i);
      assert (a + b)[i..i + |k|] == a[i..i + |k|];
      assert OccursAt(a + b, k, i);
    }
    if Contains(b, k) {
      var i :| 0 <= i <= |b| - |k| && OccursAt(b, k, i);
      assert (a + b)[|a| + i..|a| + i + |k|] == b[i..i + |k|];
      assert OccursAt(a + b, k, |a| + i);
    }
  }

  /** `ContainsAny` grows with the text the same way. */
  lemma ContainsAnyAppend(a: string, b: string, keys: seq<string>)
    ensures ContainsAny(a, keys) ==> ContainsAny(a + b, keys)
    ensures ContainsAny(b, keys) ==> ContainsAny(a + b, keys)
  {
    if ContainsAny(a, keys) {
      var j :| 0 <= j < |keys| && Contains(a, keys[j]);
      ContainsAppend(a, b, keys[j]);
    }
    if ContainsAny(b, keys) {
      var j :| 0 <= j < |keys| && Contains(b, keys[j]);
      ContainsAppend(a, b, keys[j]);
    }
  }

  /** Matching against a sub-list of keywords implies matching the list. */
  lemma ContainsAnySubset(s: string, small: seq<string>, big: seq<string>)
    requires forall j :: 0 <= j < |small| ==> small[j] in big
    ensures ContainsAny(s, small) ==> ContainsAny(s, big)
  {
    if ContainsAny(s, small) {
      var j :| 0 <= j < |small| && Contains(s, small[j]);
      var m :| 0 <= m < |big| && big[m] == small[j];
    }
  }

  /** A text matches a keyword list only if some keyword fits in it. */
  lemma ContainsAnyNeedsRoom(s: string, keys: seq<string>)
    requires forall j :: 0 <= j < |keys| ==> |s| < |keys[j]|
    ensures !ContainsAny(s, keys)
  {
  }
}

=== FILE: wrappers.dfy ===
/** Failure-carrying result types shared by the request handlers. */
module Wrappers {

  /** A value that may be absent: JavaScript's `undefined` for an optional field. */
  datatype Option<+T> = None | Some(value: T) {

    /** The value, or `default` when absent (JavaScript's `x ?? default`). */
    function GetOr(default: T): T {
      match this
      case Some(v) => v
      case None => default
    }
  }

  /** Either the computed value or the error that ended the computation early. */
  datatype Result<+R, +E> = Success(value: R) | Failure(error: E)
}
